=== FILE: README.md ===
# brewPipe memoization layer in Dafny

This project models the part of brewPipe that lets a pipeline skip work it
already did in an earlier run. It has four pieces:

- **`PipelineState`** is the process-wide key/value state. It maps string keys
  to values. Every set writes the whole mapping to a backing file. A missing
  key reads as an empty mapping `{}`. Only one instance ever exists.
- **`PipelineStateInterface`** is the base class of every stage. It qualifies
  each descriptor as `ClassName + "##" + descriptor` before touching the
  shared state.
- **`BrewPipeDataFrame`** is the artifact passed between stages. It is either
  eager (a plain mutable `data` slot) or lazy (a mandatory hash plus a
  callback run on every read of `data`).
- **`NumpyNullPreprocessor.preprocess`** is the client of the cache protocol
  modelled here. It looks up the frame's name. On a falsy result it reads,
  persists and records the data. Otherwise it loads the saved array.

Everything is modelled as pure transition functions over immutable values:

- `values.dfy` holds `Common` (`Option`, `Result`) and `Values` (a Python value
  and its truthiness).
- `state.dfy` holds `State`: the store is a record of the in-memory mapping
  `mem` and the backing file's content `disk`, which is `None` while the file
  does not exist.
- `namespace.dfy` holds `Namespace`: key qualification and its inverse
  `Split`, the stage `put`/`get`, and runs of puts.
- `frames.dfy` holds `Frames`: construction, the `data` getter and setter.
  Each read returns the value together with the list of names the callback
  was called with.
- `numpynull.dfy` holds `NumpyNull`: saved arrays are a map from path to
  value, and `preprocess` returns the new state, the new files, the result
  frame and the callback calls made.

Inputs from the environment become parameters:

- the content of the state file at start-up is `backing: Option<Snapshot>`;
- the singleton registry is `existing: Option<Store>`;
- the lazy callback is a function `string -> Value`;
- the runtime class name of a stage is a string.

A frame whose name is the empty string is never served from the cache. The
name recorded for it is `""`, which is falsy, so every run takes the miss
path again (`NumpyNull.EmptyNameAlwaysMisses`).

Two behaviours are kept exactly as the code has them, although a durable store would be expected to differ:

- **Delete is not durable.** `__delitem__` (brewPipe/pipelineState/state.py
  lines 78-83) does not re-save the snapshot. A key deleted after it was put
  therefore comes back on the next start, unless a later put has re-saved
  the snapshot in the meantime (`State.DeleteNotPersisted` states the case
  with no put in between).
- **A corrupt state file is not recovered.** It is not read as an empty
  mapping: `pickle.load` raises. The model only has "missing" and "holds a
  snapshot".

## Model

| member | source | states |
|---|---|---|
| State.LoadState | brewPipe/pipelineState/state.py:44-48 | a missing backing file loads as the empty mapping; an existing one loads as its snapshot |
| State.Open | brewPipe/pipelineState/state.py:39-48 | the store keeps the file name; a missing backing file loads as the empty mapping; an existing one loads as exactly its snapshot, so memory and file agree |
| State.OpenMissingIsEmpty | brewPipe/pipelineState/state.py:44-46 | with no backing file the store has length 0, contains no key and reads every key as `{}` |
| State.Construct | brewPipe/pipelineState/state.py:19-22 | once an instance exists, constructing again returns that very instance; the first construction keeps its file name and file content, starts empty when the file is missing and otherwise holds exactly the file's snapshot |
| State.ConstructReusesInstance | brewPipe/pipelineState/state.py:19-22 | a second construction with any other file name and file content returns the first store, whose file name stays the first one |
| State.Contains | brewPipe/pipelineState/state.py:89-94 | a key is contained exactly when it is in the mapping's domain; a key not contained reads as `{}`; a contained key means the length is at least 1 |
| State.Len | brewPipe/pipelineState/state.py:85-87 | the length is the number of keys in the domain, and it is 0 exactly for the empty mapping |
| State.Get | brewPipe/pipelineState/state.py:65-76 | a present key reads as its stored value; an absent key reads as `{}`, which is falsy; reading changes nothing |
| State.Save | brewPipe/pipelineState/state.py:50-52 | after saving, the backing file holds exactly the in-memory mapping |
| State.Put | brewPipe/pipelineState/state.py:54-63 | the key reads back as the value and is contained; every other key reads and is contained as before; the file holds the full new mapping; the length grows by 1 for a fresh key and by 0 for an existing one |
| State.Delete | brewPipe/pipelineState/state.py:78-83 | afterwards the key is absent and reads `{}`; an absent key makes it a no-op; a present key lowers the length by 1; other keys are untouched; the backing file is unchanged |
| State.Reopen | brewPipe/pipelineState/state.py:39-48 | a fresh process on the same file keeps the file name and file content and loads exactly the file's snapshot, whatever the old memory held (so memory and file agree again); with no file it starts empty |
| State.PutDurable | brewPipe/pipelineState/state.py:39-63 | a fresh process that reopens the file written by `put(k, v)` has the same mapping, so it reads `k` as `v` |
| State.DeleteNotPersisted | brewPipe/pipelineState/state.py:78-83 | after `put(k, v)` then `delete(k)` the key is gone in memory, yet reopening the file reads `k` as `v` again |
| Namespace.Qualify | brewPipe/pipelineState/__init__.py:26-27 | the key is the class name, then `##`, then the descriptor, with nothing else in between |
| Namespace.SplitQualify | brewPipe/pipelineState/__init__.py:26-27 | splitting a qualified key at its first '#' recovers the class name and the descriptor, when the class name contains no '#' |
| Namespace.QualifyInjective | brewPipe/pipelineState/__init__.py:22-25 | for class names without '#', two qualified keys are equal exactly when both class names and both descriptors are equal |
| Namespace.HashInClassNameCollides | brewPipe/pipelineState/__init__.py:26-27 | without that rule, the keys of class `A#` with `x` and class `A` with `#x` collide |
| Namespace.NewStage | brewPipe/pipelineState/__init__.py:16-17 | a new stage is bound to the existing singleton store if there is one; otherwise to a store on the default file `pipelinestate.pickle`, empty when that file is missing and otherwise holding its snapshot |
| Namespace.Put | brewPipe/pipelineState/__init__.py:19-28 | the stage reads the descriptor back as the value and the qualified key is contained; every other state key reads and is contained as before; the whole mapping is written to the store's own file, whose name is kept |
| Namespace.Get | brewPipe/pipelineState/__init__.py:30-33 | the stage reads the value stored at its qualified key, or `{}` when nothing is stored there |
| Namespace.PutThenGet | brewPipe/pipelineState/__init__.py:19-33 | within one class, `put(d, v)` then `get(d)` gives `v`, and every other descriptor of that class reads as before |
| Namespace.PutIsolated | brewPipe/pipelineState/__init__.py:19-33 | a put by one class changes nothing that a different class (both names without '#') reads, for any descriptor |
| Namespace.SharedAcrossInstances | brewPipe/pipelineState/__init__.py:16-17 | a value put through the first instance of a class is read back through a second instance of that class, whatever state file the second would have opened |
| Namespace.NeverPutUnchanged | brewPipe/pipelineState/__init__.py:19-33 | after any run of puts by well-named classes, a descriptor that no call put for a class reads as it did before the run |
| Namespace.NeverPutReadsEmpty | brewPipe/pipelineState/__init__.py:30-33 | starting without a state file, a descriptor never put reads as `{}` |
| Frames.MakeFrame | brewPipe/data/__init__.py:39-50 | a lazy frame fails exactly when the hash or the callback is missing; a missing hash is reported first; a lazy frame keeps the given hash (0 included) and callback; an eager frame has hash 0 and no callback; every frame starts with no data |
| Frames.ReadData | brewPipe/data/__init__.py:52-56 | an eager frame returns its slot and calls nothing; a lazy frame returns `callback(name)` and calls the callback once, with its name |
| Frames.SetData | brewPipe/data/__init__.py:58-63 | on an eager frame the next read returns the set value; on a lazy frame it raises and the frame is unchanged; name, mode, hash and callback never change |
| Frames.ReadsAreNotMemoized | brewPipe/data/__init__.py:52-56 | n reads of a lazy frame make exactly n callback calls, each with the frame's name, and each read gives the same result; n reads of an eager frame make none |
| Frames.EagerSetThenGet | brewPipe/data/__init__.py:58-62 | on a freshly built eager frame, setting `data` then reading it returns the set value without raising |
| NumpyNull.NewPreprocessor | brewPipe/preprocess/numpyNull.py:20-28 | the preprocessor keeps its class name and the given directory, or `intermediates` when none is given; it joins the existing shared store, or one built on the default state file as in a new stage |
| NumpyNull.NewPreprocessorSharesStore | brewPipe/preprocess/numpyNull.py:20-28 | a preprocessor built after a stage of the same class recorded a value reads that value for the same frame name |
| NumpyNull.PathJoin | brewPipe/preprocess/numpyNull.py:31-32 | with an empty directory the path is the file name; a directory ending in `/` is followed directly by the file name; any other directory is followed by exactly one inserted `/` and then the file name |
| NumpyNull.FileName | brewPipe/preprocess/numpyNull.py:31-32 | the path both persist and load use is `os.path.join(directory, 'NumpyNullPreprocessor' + name)`: the prefixed name alone for an empty directory, otherwise the directory, then one '/' unless the directory already ends in one, then the prefixed name |
| NumpyNull.FileNameInjective | brewPipe/preprocess/numpyNull.py:31-32 | in one directory, different frame names give different files |
| NumpyNull.PersistNumpy | brewPipe/preprocess/numpyNull.py:30-35 | the returned path is the name's file name and now holds the array; the set of files grows by that path only; every other file is unchanged |
| NumpyNull.LoadNumpy | brewPipe/preprocess/numpyNull.py:37-42 | loading fails with file-not-found for the name's path exactly when nothing was saved there; otherwise it returns what is saved at that path |
| NumpyNull.PersistThenLoad | brewPipe/preprocess/numpyNull.py:30-42 | loading a name after persisting it returns the persisted array; loading every other name gives what it gave before |
| NumpyNull.Output | brewPipe/preprocess/numpyNull.py:56-58 | the returned frame is eager, carries the given name and reads back the given data |
| NumpyNull.Preprocess | brewPipe/preprocess/numpyNull.py:44-58 | on a falsy lookup the input is read once, its data is returned unchanged under the input's name, saved at that name's path, and the name is recorded in the stage namespace; the file set grows by that one path only, every file at another path, every other state key and the state file name stay as they were; on a truthy lookup the input is never read and nothing changes, and the result is the file saved under the recorded string, named by it; a recorded non-string raises, and a missing file raises file-not-found for that path |
| NumpyNull.SecondRunHits | brewPipe/preprocess/numpyNull.py:44-55 | after a miss for a non-empty name, preprocessing any frame with that name hits: nothing is read or changed and the same frame comes back |
| NumpyNull.EmptyNameAlwaysMisses | brewPipe/preprocess/numpyNull.py:45-47 | for the empty name the recorded `""` is falsy, so the second run misses: it reads the input again, returns the new input's data and saves that data over the file for `""` |

## Left out

- Locking (`threading.Lock` in state.py): it only serialises calls, so each operation is one atomic step.
- Pickle encoding of the state file: the file is the snapshot itself.
- A corrupt state file: `pickle.load` raises and nothing recovers. The model has only a missing file or a readable snapshot.
- `numpy.save` and `np.load`: a saved array is the value itself. numpy's conversion of non-array values to arrays is not modelled.
- Path aliases: files are keyed by the path string, so two spellings of one file (`intermediates` and `./intermediates`, `a//b` and `a/b`, a symlink) are different keys; the miss branch's "every other path keeps its content" holds for paths as strings, not for the real file system.
- `os.path.join` with an absolute second part: the file name always starts with `NumpyNullPreprocessor`, so that case cannot arise.
- Windows path joining (`ntpath`, with `\` separators and drive letters): only POSIX joining is modelled.
- State keys of non-string types: every caller uses string keys.
- Python's `hash` argument of non-integer type: it is modelled as an integer.
- A non-boolean `lazy_frame` argument: it is modelled as a boolean.
- Side effects and failures of a lazy callback: it is a pure function of the name. The model records each call it receives.
- Identity and mutability of the `{}` returned for a missing key: in the source each miss returns a new dict. The model returns the value `{}`.
- Failures of the file writes inside `put` and `_persist_numpy`: I/O errors are not modelled.
- brewPipe/data/winton.py and brewPipe/data/morse.py: pandas, HDF5 and WAV I/O, and fingerprints over float modification times.
- brewPipe/models, brewPipe/output, the scratchpad scripts and setup.py: training, statistics and CSV output, outside the memoization layer.

=== FILE: frames.dfy ===
/**
 * The data frame handed between pipeline stages (`BrewPipeDataFrame` in
 * brewPipe/data/__init__.py). An eager frame is a plain mutable slot; a
 * lazy frame carries a fingerprint (`hash`) and a callback that produces
 * the data from the frame's name on every read.
 */
module Frames {
  import opened Common
  import opened Values

  /** A lazy frame's callback: called with the frame's name, returns the data. */
  type Callback = string -> Value

  /** The `RuntimeError`s the frame raises. */
  datatype FrameError =
    | MissingHash      // lazy frame constructed with `hash=None`
    | MissingCallback  // lazy frame constructed with `callback=None`
    | LazyWrite        // `data` assigned on a lazy frame

  /** A frame's fields: `name`, `_static_data`, `hash`, `callback`, `_lazy_frame`. */
  datatype Frame = Frame(name: string, staticData: Value, hash: int, callback: Option<Callback>, lazy: bool)

  /** What construction guarantees: a lazy frame always has a callback. */
  predicate Valid(f: Frame) {
    f.lazy ==> f.callback.Some?
  }

  /**
   * `__init__`: a non-lazy frame ignores `hash` and `callback` (hash 0, no
   * callback); a lazy frame needs both, the hash being checked first.
   * Every frame starts with no static data.
   */
  function MakeFrame(name: string, lazy: bool, hash: Option<int>, callback: Option<Callback>): (r: Result<Frame, FrameError>)
    ensures r.Err? <==> lazy && (hash.None? || callback.None?)
    ensures r.Err? ==> (r.error == MissingHash <==> hash.None?)
    ensures r.Err? ==> (r.error == MissingCallback <==> hash.Some? && callback.None?)
    ensures r.Ok? ==> Valid(r.value) && r.value.name == name && r.value.lazy == lazy && r.value.staticData == VNone
    ensures r.Ok? && lazy ==> r.value.hash == hash.value && r.value.callback == callback
    ensures r.Ok? && !lazy ==> r.value.hash == 0 && r.value.callback == None
  {
    if lazy then
      if hash.None? then Err(MissingHash)
      else if callback.None? then Err(MissingCallback)
      else Ok(Frame(name, VNone, hash.value, callback, true))
    else
      Ok(Frame(name, VNone, 0, None, false))
  }

  /** One read of `data`: the value returned and the names the callback was called with. */
  datatype Read = Read(value: Value, calls: seq<string>)

  /**
   * The `data` getter: an eager frame returns its slot without any call;
   * a lazy frame calls its callback once, with its own name.
   */
  function ReadData(f: Frame): (r: Read)
    requires Valid(f)
    ensures !f.lazy ==> r.value == f.staticData && r.calls == []
    ensures f.lazy ==> r.value == f.callback.value(f.name) && r.calls == [f.name]
  {
    if !f.lazy then Read(f.staticData, [])
    else Read(f.callback.value(f.name), [f.name])
  }

  /** The outcome of assigning `data`: the frame afterwards and the error raised, if any. */
  datatype Assigned = Assigned(frame: Frame, raised: Option<FrameError>)

  /**
   * The `data` setter: an eager frame stores the value, so the next read
   * returns it; a lazy frame raises and keeps all its fields.
   */
  function SetData(f: Frame, v: Value): (r: Assigned)
    requires Valid(f)
    ensures Valid(r.frame)
    ensures r.frame.name == f.name && r.frame.lazy == f.lazy && r.frame.hash == f.hash && r.frame.callback == f.callback
    ensures !f.lazy ==> r.raised == None && ReadData(r.frame) == Read(v, [])
    ensures f.lazy ==> r.raised == Some(LazyWrite) && r.frame == f
  {
    if !f.lazy then Assigned(f.(staticData := v), None)
    else Assigned(f, Some(LazyWrite))
  }

  /** `n` successive reads of `data`. */
  function ReadTimes(f: Frame, n: nat): seq<Read>
    requires Valid(f)
  {
    if n == 0 then [] else [ReadData(f)] + ReadTimes(f, n - 1)
  }

  /** Every callback call made by a run of reads, in order. */
  function AllCalls(history: seq<Read>): seq<string> {
    if |history| == 0 then [] else history[0].calls + AllCalls(history[1..])
  }

  /**
   * No memoization: `n` reads of a lazy frame call the callback `n` times,
   * each time with the frame's name, and every read returns
   * `callback(name)`; `n` reads of an eager frame call nothing.
   */
  lemma {:induction false} ReadsAreNotMemoized(f: Frame, n: nat)
    requires Valid(f)
    ensures |ReadTimes(f, n)| == n
    ensures forall i :: 0 <= i < n ==> ReadTimes(f, n)[i] == ReadData(f)
    ensures |AllCalls(ReadTimes(f, n))| == if f.lazy then n else 0
    ensures forall i :: 0 <= i < |AllCalls(ReadTimes(f, n))| ==> AllCalls(ReadTimes(f, n))[i] == f.name
  {
    if n > 0 {
      ReadsAreNotMemoized(f, n - 1);
      var history := ReadTimes(f, n);
      assert history[1..] == ReadTimes(f, n - 1);
      assert AllCalls(history) == ReadData(f).calls + AllCalls(ReadTimes(f, n - 1));
    }
  }

  /** Eager frame: setting `data` and then reading it returns the set value, without any call. */
  lemma EagerSetThenGet(name: string, v: Value)
    ensures var f := MakeFrame(name, false, None, None).value;
            var a := SetData(f, v);
            a.raised == None && ReadData(a.frame) == Read(v, [])
  {
  }
}

=== FILE: namespace.dfy ===
/**
 * Stage namespacing (`PipelineStateInterface` in
 * brewPipe/pipelineState/__init__.py): every stage reaches the one shared
 * store through keys qualified as `ClassName + "##" + descriptor`.
 */
module Namespace {
  import opened Common
  import opened Values
  import State

  /** The separator placed between the class name and the descriptor. */
  const Separator: string := "##"

  /** A Python class name is an identifier, so it never contains '#'. */
  predicate IsClassName(className: string) {
    '#' !in className
  }

  /** The qualified state key of `descriptor` for stages of class `className`. */
  function Qualify(className: string, descriptor: string): (key: string)
    ensures |key| == |className| + |Separator| + |descriptor|
    ensures key[..|className|] == className
    ensures key[|className|..|className| + |Separator|] == Separator
    ensures key[|className| + |Separator|..] == descriptor
  {
    className + Separator + descriptor
  }

  // ---------------------------------------------------------------------
  // Parsing a qualified key back: the inverse of Qualify

  /** The index of the first '#' in `s`, or `|s|` when there is none. */
  function FirstHash(s: string): (i: nat)
    ensures i <= |s|
    ensures forall j :: 0 <= j < i ==> s[j] != '#'
    ensures i < |s| ==> s[i] == '#'
  {
    if |s| == 0 then 0
    else if s[0] == '#' then 0
    else 1 + FirstHash(s[1..])
  }

  /** A qualified key taken apart. */
  datatype Qualified = Qualified(className: string, descriptor: string)

  /** Split a key at its first '#', which must start the separator. */
  function Split(key: string): Option<Qualified> {
    var i := FirstHash(key);
    if i + |Separator| <= |key| && key[i..i + |Separator|] == Separator
    then Some(Qualified(key[..i], key[i + |Separator|..]))
    else None
  }

  /** Splitting a qualified key recovers the class name and the descriptor. */
  lemma {:induction false} SplitQualify(className: string, descriptor: string)
    requires IsClassName(className)
    ensures Split(Qualify(className, descriptor)) == Some(Qualified(className, descriptor))
  {
    var key := Qualify(className, descriptor);
    var n := |className|;
    assert key[..n] == className;
    assert key[n..n + 2] == Separator;
    assert key[n + 2..] == descriptor;
    assert key[n] == '#';
    assert FirstHash(key) == n;
  }

  /**
   * Stage separation: qualified keys determine the class name and the
   * descriptor they were built from, provided class names contain no '#'.
   */
  lemma QualifyInjective(c1: string, d1: string, c2: string, d2: string)
    requires IsClassName(c1) && IsClassName(c2)
    ensures Qualify(c1, d1) == Qualify(c2, d2) <==> c1 == c2 && d1 == d2
  {
    SplitQualify(c1, d1);
    SplitQualify(c2, d2);
  }

  /** Without the identifier rule, different stages can collide on one key. */
  lemma HashInClassNameCollides()
    ensures "A#" != "A" && Qualify("A#", "x") == Qualify("A", "#x")
  {
  }

  // ---------------------------------------------------------------------
  // Stage operations

  /** A stage instance: all it owns is its class name; the store is the shared singleton. */
  datatype Stage = Stage(className: string)

  /**
   * `PipelineStateInterface.__init__`: a new stage of class `className`
   * obtains the singleton store, built with the default file on first use.
   */
  function NewStage(existing: Option<State.Store>, className: string, backing: Option<State.Snapshot>): (r: (Stage, State.Store))
    ensures r.0.className == className
    ensures existing.Some? ==> r.1 == existing.value
    ensures existing.None? ==> r.1.stateFile == State.DefaultStateFile && r.1.disk == backing
    ensures existing.None? && backing.None? ==> |r.1.mem| == 0
    ensures existing.None? && backing.Some? ==> State.Synced(r.1)
  {
    (Stage(className), State.Construct(existing, State.DefaultStateFile, backing))
  }

  /** `PipelineStateInterface.put`: a store put at the stage's qualified key. */
  function Put(s: State.Store, stage: Stage, descriptor: string, value: Value): (s': State.Store)
    ensures Get(s', stage, descriptor) == value
    ensures State.Contains(s', Qualify(stage.className, descriptor))
    ensures forall key :: key != Qualify(stage.className, descriptor) ==>
              State.Get(s', key) == State.Get(s, key) && (State.Contains(s', key) <==> State.Contains(s, key))
    ensures State.Synced(s') && s'.stateFile == s.stateFile
  {
    State.Put(s, Qualify(stage.className, descriptor), value)
  }

  /**
   * `PipelineStateInterface.get`: the value stored at the stage's qualified
   * key, or `{}` when nothing is stored there.
   */
  function Get(s: State.Store, stage: Stage, descriptor: string): (v: Value)
    ensures Qualify(stage.className, descriptor) in s.mem ==> v == s.mem[Qualify(stage.className, descriptor)]
    ensures Qualify(stage.className, descriptor) !in s.mem ==> v == EmptyMapping
  {
    State.Get(s, Qualify(stage.className, descriptor))
  }

  /** Within one stage class, a put descriptor reads back as its value and no other descriptor changes. */
  lemma PutThenGet(s: State.Store, stage: Stage, descriptor: string, value: Value)
    ensures Get(Put(s, stage, descriptor, value), stage, descriptor) == value
    ensures forall d :: d != descriptor ==> Get(Put(s, stage, descriptor, value), stage, d) == Get(s, stage, d)
  {
  }

  /** A put by one stage class leaves everything another class reads unchanged. */
  lemma PutIsolated(s: State.Store, writer: Stage, descriptor: string, value: Value, reader: Stage)
    requires IsClassName(writer.className) && IsClassName(reader.className)
    requires writer.className != reader.className
    ensures forall d :: Get(Put(s, writer, descriptor, value), reader, d) == Get(s, reader, d)
  {
    forall d
      ensures Get(Put(s, writer, descriptor, value), reader, d) == Get(s, reader, d)
    {
      QualifyInjective(writer.className, descriptor, reader.className, d);
    }
  }

  /**
   * Every stage instance reaches the same store: a value put through one
   * instance is read back through a later instance of the same class.
   */
  lemma SharedAcrossInstances(className: string, backing: Option<State.Snapshot>, otherBacking: Option<State.Snapshot>, descriptor: string, value: Value)
    ensures var (first, s0) := NewStage(None, className, backing);
            var s1 := Put(s0, first, descriptor, value);
            var (second, s2) := NewStage(Some(s1), className, otherBacking);
            second == first && Get(s2, second, descriptor) == value
  {
  }

  // ---------------------------------------------------------------------
  // Runs of puts

  /** One `put` call made by some stage. */
  datatype PutCall = PutCall(stage: Stage, descriptor: string, value: Value)

  /** The store after the given puts, made in order. */
  function ApplyPuts(s: State.Store, calls: seq<PutCall>): State.Store
    decreases |calls|
  {
    if |calls| == 0 then s
    else ApplyPuts(Put(s, calls[0].stage, calls[0].descriptor, calls[0].value), calls[1..])
  }

  /** Every stage in the run has a class name free of '#'. */
  predicate WellNamed(calls: seq<PutCall>) {
    forall i :: 0 <= i < |calls| ==> IsClassName(calls[i].stage.className)
  }

  /** No call in the run put `descriptor` for the class of `stage`. */
  predicate NeverPut(calls: seq<PutCall>, stage: Stage, descriptor: string) {
    forall i :: 0 <= i < |calls| ==>
      calls[i].stage.className != stage.className || calls[i].descriptor != descriptor
  }

  /** A descriptor nobody put for a class reads as it did before the run. */
  lemma {:induction false} NeverPutUnchanged(s: State.Store, calls: seq<PutCall>, stage: Stage, descriptor: string)
    requires IsClassName(stage.className) && WellNamed(calls)
    requires NeverPut(calls, stage, descriptor)
    ensures Get(ApplyPuts(s, calls), stage, descriptor) == Get(s, stage, descriptor)
    decreases |calls|
  {
    if |calls| > 0 {
      var c := calls[0];
      var s' := Put(s, c.stage, c.descriptor, c.value);
      QualifyInjective(c.stage.className, c.descriptor, stage.className, descriptor);
      assert Get(s', stage, descriptor) == Get(s, stage, descriptor);
      assert WellNamed(calls[1..]) by {
        forall i | 0 <= i < |calls[1..]| ensures IsClassName(calls[1..][i].stage.className) {
          assert calls[1..][i] == calls[i + 1];
        }
      }
      assert NeverPut(calls[1..], stage, descriptor) by {
        forall i | 0 <= i < |calls[1..]|
          ensures calls[1..][i].stage.className != stage.className || calls[1..][i].descriptor != descriptor
        {
          assert calls[1..][i] == calls[i + 1];
        }
      }
      NeverPutUnchanged(s', calls[1..], stage, descriptor);
    }
  }

  /** Starting without a state file, a descriptor never put reads as the empty mapping `{}`. */
  lemma NeverPutReadsEmpty(stateFile: string, calls: seq<PutCall>, stage: Stage, descriptor: string)
    requires IsClassName(stage.className) && WellNamed(calls)
    requires NeverPut(calls, stage, descriptor)
    ensures Get(ApplyPuts(State.Open(stateFile, None), calls), stage, descriptor) == EmptyMapping
  {
    NeverPutUnchanged(State.Open(stateFile, None), calls, stage, descriptor);
  }
}

=== FILE: numpynull.dfy ===
/**
 * The identity preprocessor (`NumpyNullPreprocessor` in
 * brewPipe/preprocess/numpyNull.py), the client of the cache protocol
 * modelled here:
 * look the frame's name up in the stage's namespace; on a falsy result
 * read the frame, persist its data and record the name; otherwise load
 * the array persisted under the recorded name.
 *
 * Array files are a map from path to the saved value.
 */
module NumpyNull {
  import opened Common
  import opened Values
  import State
  import Namespace
  import Frames

  /** The prefix of every file name this preprocessor writes. */
  const FilePrefix: string := "NumpyNullPreprocessor"

  /** The intermediate directory used when the constructor is given none. */
  const DefaultDirectory: string := "intermediates"

  /** Saved arrays, by path. */
  type Files = map<string, Value>

  /** The preprocessor: its stage (runtime class name) and its intermediate directory. */
  datatype Preprocessor = Preprocessor(stage: Namespace.Stage, directory: string)

  /** What `preprocess` can raise before it changes anything. */
  datatype PreprocessError =
    | NameNotString(stored: Value)  // `'NumpyNullPreprocessor' + name` on a non-string
    | FileNotFound(path: string)    // opening a file that was never saved

  /** A successful `preprocess`: the state and files afterwards, the frame returned, the callback calls made. */
  datatype Outcome = Outcome(store: State.Store, files: Files, result: Frames.Frame, calls: seq<string>)

  /**
   * `__init__`: the stage joins the shared store (built on the default
   * state file when no instance exists yet) and remembers the intermediate
   * directory, `intermediates` when the argument is omitted (`None` here).
   */
  function NewPreprocessor(existing: Option<State.Store>, className: string, directory: Option<string>, backing: Option<State.Snapshot>): (r: (Preprocessor, State.Store))
    ensures r.0.stage.className == className
    ensures directory.Some? ==> r.0.directory == directory.value
    ensures directory.None? ==> r.0.directory == DefaultDirectory
    ensures existing.Some? ==> r.1 == existing.value
    ensures existing.None? ==> r.1.stateFile == State.DefaultStateFile && r.1.disk == backing
    ensures existing.None? && backing.None? ==> |r.1.mem| == 0
    ensures existing.None? && backing.Some? ==> State.Synced(r.1)
  {
    var (stage, s) := Namespace.NewStage(existing, className, backing);
    var dir := match directory case Some(d) => d case None => DefaultDirectory;
    (Preprocessor(stage, dir), s)
  }

  /**
   * A preprocessor built after some stage of the same class recorded a
   * name sees that record: it reaches the one shared store.
   */
  lemma NewPreprocessorSharesStore(s: State.Store, className: string, directory: Option<string>, backing: Option<State.Snapshot>, frame: Frames.Frame, recorded: Value)
    ensures var written := Namespace.Put(s, Namespace.Stage(className), frame.name, recorded);
            var (p, s') := NewPreprocessor(Some(written), className, directory, backing);
            Recorded(s', p, frame) == recorded
  {
  }

  /** POSIX `os.path.join(directory, file)` for a `file` that does not start with '/'. */
  function PathJoin(directory: string, file: string): (path: string)
    requires |file| > 0 && file[0] != '/'
    ensures |path| >= |file| && path[|path| - |file|..] == file
    ensures directory == "" ==> path == file
    ensures directory != "" ==> |path| >= |directory| && path[..|directory|] == directory
    ensures directory != "" ==> |path| - |directory| - |file| <= 1
    ensures directory != "" && directory[|directory| - 1] == '/' ==> |path| == |directory| + |file|
    ensures directory != "" && directory[|directory| - 1] != '/' ==>
              |path| == |directory| + |file| + 1 && path[|directory|] == '/'
  {
    if directory == "" then file
    else if directory[|directory| - 1] == '/' then directory + file
    else directory + "/" + file
  }

  /**
   * The path both `_persist_numpy` and `_load_numpy` use for `name`: the
   * directory, one '/' unless it already ends in one, then the prefixed name.
   */
  function FileName(p: Preprocessor, name: string): (path: string)
    ensures |path| >= |FilePrefix + name| && path[|path| - |FilePrefix + name|..] == FilePrefix + name
    ensures p.directory != "" ==> |path| >= |p.directory| && path[..|p.directory|] == p.directory
    ensures p.directory == "" ==> path == FilePrefix + name
    ensures p.directory != "" && p.directory[|p.directory| - 1] == '/' ==>
              |path| == |p.directory| + |FilePrefix + name|
    ensures p.directory != "" && p.directory[|p.directory| - 1] != '/' ==>
              |path| == |p.directory| + |FilePrefix + name| + 1 && path[|p.directory|] == '/'
  {
    PathJoin(p.directory, FilePrefix + name)
  }

  /** Different names never share a file. */
  lemma FileNameInjective(p: Preprocessor, name1: string, name2: string)
    requires name1 != name2
    ensures FileName(p, name1) != FileName(p, name2)
  {
    var d := p.directory;
    var lead := if d == "" then "" else if d[|d| - 1] == '/' then d else d + "/";
    var f1 := FilePrefix + name1;
    var f2 := FilePrefix + name2;
    assert FileName(p, name1) == lead + f1;
    assert FileName(p, name2) == lead + f2;
    assert (lead + f1)[|lead|..] == f1 && f1[|FilePrefix|..] == name1;
    assert (lead + f2)[|lead|..] == f2 && f2[|FilePrefix|..] == name2;
  }

  /** `_persist_numpy`: save the array at the name's path and return that path. */
  function PersistNumpy(files: Files, p: Preprocessor, arr: Value, name: string): (r: (Files, string))
    ensures r.1 == FileName(p, name)
    ensures r.1 in r.0 && r.0[r.1] == arr
    ensures r.0.Keys == files.Keys + {r.1}
    ensures forall path :: path in files && path != r.1 ==> r.0[path] == files[path]
  {
    var path := FileName(p, name);
    (files[path := arr], path)
  }

  /** `_load_numpy`: the array saved at the name's path; opening a missing file raises. */
  function LoadNumpy(files: Files, p: Preprocessor, name: string): (r: Result<Value, PreprocessError>)
    ensures r.Err? <==> FileName(p, name) !in files
    ensures r.Err? ==> r.error == FileNotFound(FileName(p, name))
    ensures r.Ok? ==> r.value == files[FileName(p, name)]
  {
    var path := FileName(p, name);
    if path in files then Ok(files[path]) else Err(FileNotFound(path))
  }

  /** Persist and load agree on the path, and saving one name leaves every other name's file alone. */
  lemma PersistThenLoad(files: Files, p: Preprocessor, arr: Value, name: string)
    ensures LoadNumpy(PersistNumpy(files, p, arr, name).0, p, name) == Ok(arr)
    ensures forall other :: other != name ==>
              LoadNumpy(PersistNumpy(files, p, arr, name).0, p, other) == LoadNumpy(files, p, other)
  {
    forall other | other != name
      ensures LoadNumpy(PersistNumpy(files, p, arr, name).0, p, other) == LoadNumpy(files, p, other)
    {
      FileNameInjective(p, name, other);
    }
  }

  /** The frame `preprocess` returns: `BrewPipeDataFrame(name)` with `data` set. */
  function Output(name: string, data: Value): (f: Frames.Frame)
    ensures Frames.Valid(f) && f.name == name && !f.lazy
    ensures Frames.ReadData(f) == Frames.Read(data, [])
  {
    var blank := Frames.MakeFrame(name, false, None, None).value;
    Frames.SetData(blank, data).frame
  }

  /** The namespaced lookup `preprocess` starts with. */
  function Recorded(s: State.Store, p: Preprocessor, frame: Frames.Frame): Value {
    Namespace.Get(s, p.stage, frame.name)
  }

  /**
   * `preprocess`. On a miss (the recorded value is falsy) the input's data
   * is read once, returned unchanged, persisted under the frame's name,
   * and the name is recorded. On a hit the input is never read: the
   * recorded string names the file the result is loaded from and the
   * result's name; nothing changes. A recorded non-string or a missing
   * file raises, also before anything changes.
   */
  function Preprocess(s: State.Store, files: Files, p: Preprocessor, frame: Frames.Frame): (r: Result<Outcome, PreprocessError>)
    requires Frames.Valid(frame)
    ensures !Truthy(Recorded(s, p, frame)) ==>
              && r.Ok?
              && r.value.calls == Frames.ReadData(frame).calls
              && r.value.result.name == frame.name && !r.value.result.lazy
              && Frames.ReadData(r.value.result).value == Frames.ReadData(frame).value
              && LoadNumpy(r.value.files, p, frame.name) == Ok(Frames.ReadData(frame).value)
              && Recorded(r.value.store, p, frame) == VStr(frame.name)
              && State.Synced(r.value.store)
              && (forall other :: other != frame.name ==>
                    Namespace.Get(r.value.store, p.stage, other) == Namespace.Get(s, p.stage, other))
              && (forall key :: key != Namespace.Qualify(p.stage.className, frame.name) ==>
                    State.Get(r.value.store, key) == State.Get(s, key))
              && (forall other :: other != frame.name ==>
                    LoadNumpy(r.value.files, p, other) == LoadNumpy(files, p, other))
              && r.value.files.Keys == files.Keys + {FileName(p, frame.name)}
              && (forall path :: path in files && path != FileName(p, frame.name) ==>
                    r.value.files[path] == files[path])
              && r.value.store.stateFile == s.stateFile
    ensures Truthy(Recorded(s, p, frame)) ==>
              && (r.Ok? <==> Recorded(s, p, frame).VStr? && LoadNumpy(files, p, Recorded(s, p, frame).s).Ok?)
              && (!Recorded(s, p, frame).VStr? ==> r == Err(NameNotString(Recorded(s, p, frame))))
              && (Recorded(s, p, frame).VStr? && r.Err? ==>
                    r.error == FileNotFound(FileName(p, Recorded(s, p, frame).s)))
              && (r.Ok? ==>
                    && r.value.calls == []
                    && r.value.store == s && r.value.files == files
                    && r.value.result.name == Recorded(s, p, frame).s && !r.value.result.lazy
                    && Ok(Frames.ReadData(r.value.result).value) == LoadNumpy(files, p, Recorded(s, p, frame).s))
  {
    var name := Recorded(s, p, frame);
    if !Truthy(name) then
      var org := Frames.ReadData(frame);
      var (files', _) := PersistNumpy(files, p, org.value, frame.name);
      var s' := Namespace.Put(s, p.stage, frame.name, VStr(frame.name));
      Namespace.PutThenGet(s, p.stage, frame.name, VStr(frame.name));
      PersistThenLoad(files, p, org.value, frame.name);
      Ok(Outcome(s', files', Output(frame.name, org.value), org.calls))
    else if !name.VStr? then
      Err(NameNotString(name))
    else
      match LoadNumpy(files, p, name.s)
      case Err(e) => Err(e)
      case Ok(arr) => Ok(Outcome(s, files, Output(name.s, arr), []))
  }

  /**
   * After a miss, preprocessing any frame of the same name again hits:
   * nothing is read, nothing changes, and the cached data comes back.
   */
  lemma SecondRunHits(s: State.Store, files: Files, p: Preprocessor, frame: Frames.Frame, again: Frames.Frame)
    requires Frames.Valid(frame) && Frames.Valid(again)
    requires again.name == frame.name && frame.name != ""
    requires !Truthy(Recorded(s, p, frame))
    ensures var first := Preprocess(s, files, p, frame).value;
            var second := Preprocess(first.store, first.files, p, again);
            && second.Ok?
            && second.value.calls == []
            && second.value.store == first.store && second.value.files == first.files
            && second.value.result == first.result
  {
  }

  /**
   * A frame with the empty name is never served from the cache: the
   * recorded name `""` is falsy, so the second run misses and reads again.
   */
  lemma EmptyNameAlwaysMisses(s: State.Store, files: Files, p: Preprocessor, frame: Frames.Frame, again: Frames.Frame)
    requires Frames.Valid(frame) && Frames.Valid(again)
    requires again.name == frame.name == ""
    requires !Truthy(Recorded(s, p, frame))
    ensures var first := Preprocess(s, files, p, frame).value;
            var second := Preprocess(first.store, first.files, p, again);
            && !Truthy(Recorded(first.store, p, again))
            && second.Ok?
            && second.value.calls == Frames.ReadData(again).calls
            && Frames.ReadData(second.value.result).value == Frames.ReadData(again).value
            && LoadNumpy(second.value.files, p, "") == Ok(Frames.ReadData(again).value)
  {
  }
}

=== FILE: state.dfy ===
/**
 * The process-wide pipeline state (`PipelineState` in
 * brewPipe/pipelineState/state.py): a mapping from string keys to values,
 * written through to a backing file as a whole snapshot on every set.
 *
 * The backing file is modelled as `disk`, the snapshot it currently holds
 * (`None` when the file does not exist). Each operation runs under the
 * store's lock in the source, so each is one atomic transition here.
 */
module State {
  import opened Common
  import opened Values

  type Snapshot = map<string, Value>

  /** The store: its backing file name, the in-memory mapping and what the file holds. */
  datatype Store = Store(stateFile: string, mem: Snapshot, disk: Option<Snapshot>)

  /** The file name `PipelineState()` uses when called without arguments. */
  const DefaultStateFile: string := "pipelinestate.pickle"

  /** `_load_state`: a missing backing file reads as the empty mapping. */
  function LoadState(backing: Option<Snapshot>): (m: Snapshot)
    ensures backing.None? ==> m == map[]
    ensures backing.Some? ==> m == backing.value
  {
    match backing
    case None => map[]
    case Some(snapshot) => snapshot
  }

  /** `__init__`: remember the file name and load whatever it holds. */
  function Open(stateFile: string, backing: Option<Snapshot>): (s: Store)
    ensures s.stateFile == stateFile && s.disk == backing
    ensures backing.None? ==> |s.mem| == 0
    ensures backing.Some? ==> Synced(s)
  {
    Store(stateFile, LoadState(backing), backing)
  }

  /**
   * The `Singleton` metaclass: the first construction builds the store,
   * every later one hands back that same store and ignores its arguments.
   */
  function Construct(existing: Option<Store>, stateFile: string, backing: Option<Snapshot>): (s: Store)
    ensures existing.Some? ==> s == existing.value
    ensures existing.None? ==> s.stateFile == stateFile && s.disk == backing
    ensures existing.None? && backing.None? ==> |s.mem| == 0
    ensures existing.None? && backing.Some? ==> Synced(s)
  {
    match existing
    case Some(instance) => instance
    case None => Open(stateFile, backing)
  }

  /** `__getitem__` with `__missing__`: an absent key reads as a fresh, falsy `{}`. */
  function Get(s: Store, key: string): (v: Value)
    ensures key in s.mem ==> v == s.mem[key]
    ensures key !in s.mem ==> v == EmptyMapping && !Truthy(v)
  {
    if key in s.mem then s.mem[key] else EmptyMapping
  }

  /** `__contains__`: membership in the mapping's domain; an absent key reads as `{}`. */
  function Contains(s: Store, key: string): (b: bool)
    ensures b <==> key in s.mem.Keys
    ensures !b ==> Get(s, key) == EmptyMapping
    ensures b ==> Len(s) >= 1
  {
    if key in s.mem then
      assert s.mem.Keys == (s.mem.Keys - {key}) + {key};
      true
    else
      false
  }

  /** `__len__`: the number of keys, zero exactly for the empty mapping. */
  function Len(s: Store): (n: nat)
    ensures n == |s.mem.Keys|
    ensures n == 0 <==> s.mem == map[]
  {
    |s.mem|
  }

  /** `_save_state`: the backing file now holds the whole in-memory mapping. */
  function Save(s: Store): (s': Store)
    ensures Synced(s') && s'.mem == s.mem && s'.stateFile == s.stateFile
  {
    s.(disk := Some(s.mem))
  }

  /**
   * `__setitem__`: set the key, then write the full snapshot. The key reads
   * back as the value, every other key reads and is contained as before,
   * the backing file holds the whole new mapping, and the size grows by one
   * exactly when the key was fresh.
   */
  function Put(s: Store, key: string, value: Value): (s': Store)
    ensures Get(s', key) == value && Contains(s', key)
    ensures forall other :: other != key ==>
              Get(s', other) == Get(s, other) && (Contains(s', other) <==> Contains(s, other))
    ensures Synced(s') && s'.stateFile == s.stateFile
    ensures Len(s') == if Contains(s, key) then Len(s) else Len(s) + 1
  {
    var mem' := s.mem[key := value];
    assert key in s.mem ==> mem'.Keys == s.mem.Keys;
    assert key !in s.mem ==> mem'.Keys == s.mem.Keys + {key};
    Save(s.(mem := mem'))
  }

  /**
   * `__delitem__`: the key is gone afterwards, it is a no-op when the key
   * was absent, every other key is untouched, and the backing file is NOT
   * rewritten.
   */
  function Delete(s: Store, key: string): (s': Store)
    ensures !Contains(s', key) && Get(s', key) == EmptyMapping
    ensures !Contains(s, key) ==> s' == s
    ensures Contains(s, key) ==> Len(s') == Len(s) - 1
    ensures forall other :: other != key ==>
              Get(s', other) == Get(s, other) && (Contains(s', other) <==> Contains(s, other))
    ensures s'.disk == s.disk && s'.stateFile == s.stateFile
  {
    var mem' := s.mem - {key};
    assert key in s.mem ==> s.mem.Keys == mem'.Keys + {key};
    assert key !in s.mem ==> mem' == s.mem;
    s.(mem := mem')
  }

  /** A fresh process opening the same backing file: it loads what the file holds, whatever the old memory held. */
  function Reopen(s: Store): (s': Store)
    ensures s'.stateFile == s.stateFile && s'.disk == s.disk
    ensures s.disk.Some? ==> s'.mem == s.disk.value && Synced(s')
    ensures s.disk.None? ==> |s'.mem| == 0
  {
    Open(s.stateFile, s.disk)
  }

  /** The backing file holds exactly the in-memory mapping. */
  predicate Synced(s: Store) {
    s.disk == Some(s.mem)
  }

  // ---------------------------------------------------------------------
  // Loading and the singleton rule

  /** Opening without a backing file gives an empty store in which every key is absent and reads `{}`. */
  lemma OpenMissingIsEmpty(stateFile: string, key: string)
    ensures Len(Open(stateFile, None)) == 0
    ensures !Contains(Open(stateFile, None), key)
    ensures Get(Open(stateFile, None), key) == EmptyMapping
  {
  }

  /**
   * Constructing the store a second time returns the first instance: the
   * second file name and whatever that file holds are ignored.
   */
  lemma ConstructReusesInstance(file1: string, backing1: Option<Snapshot>, file2: string, backing2: Option<Snapshot>)
    ensures var first := Construct(None, file1, backing1);
            var second := Construct(Some(first), file2, backing2);
            second == first && second.stateFile == file1
  {
  }

  // ---------------------------------------------------------------------
  // Put / get

  /** Durability: a fresh process opening the file written by a put sees the same mapping. */
  lemma PutDurable(s: Store, key: string, value: Value)
    ensures Reopen(Put(s, key, value)).mem == Put(s, key, value).mem
    ensures Get(Reopen(Put(s, key, value)), key) == value
  {
  }

  // ---------------------------------------------------------------------
  // Delete

  /**
   * Because delete does not re-save, a key deleted after it was put comes
   * back when a fresh process reopens the backing file.
   */
  lemma DeleteNotPersisted(s: Store, key: string, value: Value)
    ensures !Contains(Delete(Put(s, key, value), key), key)
    ensures Get(Reopen(Delete(Put(s, key, value), key)), key) == value
  {
  }
}

=== FILE: values.dfy ===
/** Failure-carrying wrappers shared by the whole model. */
module Common {

  /** An optional value; `None` stands for Python's `None` argument or a missing file. */
  datatype Option<+T> = None | Some(value: T)

  /** The outcome of an operation that may raise. */
  datatype Result<+T, +E> = Ok(value: T) | Err(error: E)
}

/** The values the pipeline stores and passes around, with Python's notion of truth. */
module Values {

  /**
   * A Python value as far as the memoization layer can observe it:
   * state entries (paths, names, fingerprints, small mappings) and the
   * payloads carried by data frames.
   */
  datatype Value =
    | VNone
    | VBool(b: bool)
    | VInt(i: int)
    | VStr(s: string)
    | VList(items: seq<Value>)
    | VDict(entries: map<string, Value>)

  /** The fresh `{}` handed out for a key the state does not hold. */
  const EmptyMapping: Value := VDict(map[])

  /** Python truthiness (`not v` is `!Truthy(v)`). */
  predicate Truthy(v: Value) {
    match v
    case VNone => false
    case VBool(b) => b
    case VInt(i) => i != 0
    case VStr(s) => |s| > 0
    case VList(items) => |items| > 0
    case VDict(entries) => |entries| > 0
  }
}
